=== FILE: README.md ===
# SuperSquareLand hero and camera: a Dafny model

This project models three small per-frame state machines of a 2D platformer:

- **HeroEntity** (`hero_entity.dfy`) is the hero's physics tick. It applies turn-back friction when the input points against the facing. Otherwise it accelerates or decelerates and then re-orients. It then applies clamped fall gravity and writes the velocity. Last, a running dash countdown overrides the horizontal speed.
- **HeroController** (`hero_controller.dfy`) is the hero's input frame. It maps keys to a move intent in {-1, 0, 1} and keeps the jump-buffer timer. It emits commands to the entity: `SetMoveDirX`, `JumpStart`, `StopJumpImpulsion` and `StartDash`.
- **CameraManager** (`camera_manager.dfy`) holds the current camera profile, with enter and exit-if-current semantics. It also runs the timed transition from the camera's framing at the start to the current profile's framing.

`real_math.dfy` holds the shared clamps (`Min`, `Max`), the engine's `Sign` (which gives 1 for 0) and a few arithmetic lemmas.

Every engine float is a Dafny `real`, so every clamp and guard is exact. The frame times (`Time.fixedDeltaTime`, `Time.deltaTime`) are parameters. The rigidbody velocity is a `Velocity` pair inside the hero state. The camera is reduced to position x/y and orthographic size. The engine's interpolation is a `lerp` function parameter.

The entity's jump queries (`IsTouchingGround`, `IsJumping`, `IsJumpImpulsing`, `IsJumpMinDurationReached`) are not defined in `HeroEntity.cs`. The model gives them as `EntityView` snapshots, one for each of the three places the controller asks. The entity may have changed in between, because a `JumpStart` sent earlier in the same frame has an effect this model does not know.

The tick follows the code's call order exactly. The dash override is written after the velocity is applied, so the applied velocity carries the speed from before the override, and the next tick starts from the dash speed. The `else` branch of `_UpdateSpeedDash` is modelled, but the tick never reaches it because of the guard at `HeroEntity.cs:57`. `FixedUpdate`'s contract shows this: with a positive countdown the speed is always the dash speed.

The code has no jump phases (ascending and falling), no coyote time, no separate ground and air tuning and no jump-fall gravity, and the model has none either. The tick applies one fall gravity every tick, including on the ground, and there is a single set of movement tuning. The jump key counts as pressed on every frame it is held, because `_GetInputDownJump` reads the held state. No jump ever cancels the buffer; only `Start` does.

## Model

| member | source | states |
|---|---|---|
| HeroEntity.Initial | Assets/SSL/Runtime/Scripts/Hero/HeroEntity.cs:13-27 | The hero starts at rest with no input, facing right (orientX 1), with the dash countdown at -1, that is expired |
| HeroEntity.SetMoveDirX | Assets/SSL/Runtime/Scripts/Hero/HeroEntity.cs:35-38 | The move intent is stored and nothing else changes |
| HeroEntity.ChangeOrientFromHorizontalMovement | Assets/SSL/Runtime/Scripts/Hero/HeroEntity.cs:63-67 | No-op on zero input; otherwise the facing becomes the sign of the input, so the hero faces the way it is pushed; a unit facing stays a unit facing; only the facing changes |
| HeroEntity.Accelerate | Assets/SSL/Runtime/Scripts/Hero/HeroEntity.cs:76-83 | New speed is min(old + acceleration*dt, speedMax), so it never exceeds speedMax whatever the starting speed; nothing else changes |
| HeroEntity.Decelerate | Assets/SSL/Runtime/Scripts/Hero/HeroEntity.cs:85-92 | New speed is max(old - deceleration*dt, 0), never negative; nothing else changes |
| HeroEntity.TurnBack | Assets/SSL/Runtime/Scripts/Hero/HeroEntity.cs:94-102 | New speed is max(old - turnBackFrictions*dt, 0); the facing is unchanged unless the floor is hit, and then it becomes the input's sign |
| HeroEntity.AreOrientAndMovementOpposite | Assets/SSL/Runtime/Scripts/Hero/HeroEntity.cs:104-107 | For a unit facing, "opposite" holds iff there is input and its sign differs from the facing; zero input is never opposite |
| HeroEntity.TurnBackFlipsOnlyAtFloor | Assets/SSL/Runtime/Scripts/Hero/HeroEntity.cs:94-107 | On the turn-back path the facing changes iff the friction drives the speed below zero, and then it flips to its opposite |
| HeroEntity.UpdateHorizontalSpeed | Assets/SSL/Runtime/Scripts/Hero/HeroEntity.cs:109-119 | With input the speed becomes min(old + acceleration*dt, speedMax), without input max(old - deceleration*dt, 0); so with input it ends at most speedMax and not below min(old, speedMax), and without input in [0, max(old, 0)]; nothing else changes |
| HeroEntity.StartDash | Assets/SSL/Runtime/Scripts/Hero/HeroEntity.cs:121-124 | The countdown is set to the dash duration (running iff that is positive); nothing else changes |
| HeroEntity.UpdateSpeedDash | Assets/SSL/Runtime/Scripts/Hero/HeroEntity.cs:126-136 | A running countdown drops by dt and the speed becomes the dash speed; an expired one leaves the countdown and sets speedMax |
| HeroEntity.ApplyFallGravity | Assets/SSL/Runtime/Scripts/Hero/HeroEntity.cs:138-145 | New vertical speed is max(old - fallGravity*dt, fallSpeedMax), never below fallSpeedMax |
| HeroEntity.ApplyHorizontalSpeed | Assets/SSL/Runtime/Scripts/Hero/HeroEntity.cs:69-74 | The velocity's x becomes speed times facing; its y and the rest are kept |
| HeroEntity.ApplyVerticalSpeed | Assets/SSL/Runtime/Scripts/Hero/HeroEntity.cs:147-152 | The velocity's y becomes the vertical speed; its x and the rest are kept |
| HeroEntity.HorizontalStep | Assets/SSL/Runtime/Scripts/Hero/HeroEntity.cs:42-49 | A unit facing stays a unit; input against the facing gives speed max(old - turnBackFrictions*dt, 0) and keeps the facing unless the friction goes below zero, when it faces the input's sign; other input gives min(old + acceleration*dt, speedMax) and faces the input's sign; no input gives max(old - deceleration*dt, 0) with the facing kept; nothing else changes |
| HeroEntity.FixedUpdate | Assets/SSL/Runtime/Scripts/Hero/HeroEntity.cs:40-61 | One tick keeps the input, ends facing as the horizontal step does (so a unit facing stays a unit), floors the vertical speed at fallSpeedMax and applies it as velocity y; velocity x is the horizontal step's speed times that facing, taken before any dash override; a running dash ends the tick at the dash speed with the countdown reduced by dt; with no dash the speed is the horizontal step's and the countdown stays |
| HeroEntity.TickKeepsSpeedInRange | Assets/SSL/Runtime/Scripts/Hero/HeroEntity.cs:40-102 | With non-negative tuning, dt >= 0 and no dash, a tick starting with speed in [0, speedMax] ends with speed in [0, speedMax] |
| HeroEntity.RunKeepsSpeedInRange | Assets/SSL/Runtime/Scripts/Hero/HeroEntity.cs:40-102 | The same bound holds after any number of ticks, and the dash stays off |
| HeroEntity.RunKeepsFacingUnit | Assets/SSL/Runtime/Scripts/Hero/HeroEntity.cs:24-67 | Starting from a unit facing (the initial 1), the facing is 1 or -1 after any number of ticks |
| HeroEntity.ZeroInputTick | Assets/SSL/Runtime/Scripts/Hero/HeroEntity.cs:85-119 | A tick with no input and no dash is exactly one deceleration step, with the facing and countdown untouched |
| HeroEntity.ZeroInputDecaysToRest | Assets/SSL/Runtime/Scripts/Hero/HeroEntity.cs:85-119 | With no input and no dash, after n ticks the speed is max(v0 - n*deceleration*dt, 0) and the facing is unchanged |
| HeroEntity.HeldInputTick | Assets/SSL/Runtime/Scripts/Hero/HeroEntity.cs:76-83 | A tick with input along the facing and no dash is exactly one acceleration step, with the facing unchanged |
| HeroEntity.HeldInputRampsToTop | Assets/SSL/Runtime/Scripts/Hero/HeroEntity.cs:76-83 | With input along the facing and no dash, after n ticks the speed is min(v0 + n*acceleration*dt, speedMax) and the facing is unchanged |
| HeroEntity.RampExample | Assets/SSL/Runtime/Scripts/Hero/HeroEntity.cs:76-83 | With speedMax 5, acceleration 20 and dt 0.1, a hero at rest pushing right reaches speeds 2, 4 and then the capped 5, and the applied velocity is 5 |
| HeroEntity.ZeroInputNeverSpeedsUp | Assets/SSL/Runtime/Scripts/Hero/HeroEntity.cs:85-92 | With no input and no dash, one tick never raises the speed and never makes it negative |
| HeroEntity.DashPinsSpeed | Assets/SSL/Runtime/Scripts/Hero/HeroEntity.cs:57-60 | While the countdown is still positive at the start of each of n ticks, the hero ends at the dash speed with the countdown at c - n*dt |
| HeroEntity.ExpiredDashStaysExpired | Assets/SSL/Runtime/Scripts/Hero/HeroEntity.cs:57-60 | Once the countdown is at or below zero, ticks never change it, so only StartDash restarts a dash |
| HeroEntity.HeldDirectionVelocityCappedDespiteDash | Assets/SSL/Runtime/Scripts/Hero/HeroEntity.cs:40-83 | As written, while a direction is held the way the hero faces, the applied horizontal velocity never exceeds speedMax, dash or not |
| HeroEntity.DashSpeedNeverApplied | Assets/SSL/Runtime/Scripts/Hero/HeroEntity.cs:40-61 | A concrete running dash with dash speed 10 and speedMax 5, right key held: the applied velocity is 5 while the stored speed is 10 |
| HeroEntity.FixedUpdateDashApplied | Assets/SSL/Runtime/Scripts/Hero/HeroEntity.cs:40-61 | The tick with the dash override before the velocity write: velocity x is always the final speed times facing; the vertical speed takes the same floored gravity step as the as-written tick; a running dash ends the tick at the dash speed |
| HeroEntity.DashAppliedMovesAtDashSpeed | Assets/SSL/Runtime/Scripts/Hero/HeroEntity.cs:40-61 | While a dash runs, the corrected tick differs from the as-written tick only in velocity x, which is the dash speed times the as-written facing |
| HeroEntity.DashAppliedAgreesWithoutDash | Assets/SSL/Runtime/Scripts/Hero/HeroEntity.cs:40-61 | With no dash running, the corrected tick equals the as-written tick |
| HeroController.InputMoveX | Assets/SSL/Runtime/Scripts/Hero/HeroController.cs:62-78 | The intent is -1, 0 or 1: 1 iff D is held (D wins over A/Q), -1 iff A or Q without D, 0 iff no key |
| HeroController.IsJumpBufferActive | Assets/SSL/Runtime/Scripts/Hero/HeroController.cs:102-105 | A cancelled buffer (timer at the duration) is closed; an open buffer with a non-negative timer has a positive duration; at timer 0 it is open iff the duration is positive |
| HeroController.ResetJumpBuffer | Assets/SSL/Runtime/Scripts/Hero/HeroController.cs:98-105 | The timer becomes 0, so the buffer is active iff its duration is positive |
| HeroController.CancelJumpBuffer | Assets/SSL/Runtime/Scripts/Hero/HeroController.cs:115-118 | The buffer becomes inactive, and its duration is kept |
| HeroController.UpdateJumpBuffer | Assets/SSL/Runtime/Scripts/Hero/HeroController.cs:107-113 | An inactive buffer is unchanged; an active one advances by dt; for dt >= 0 the timer never decreases and an inactive buffer stays inactive |
| HeroController.Start | Assets/SSL/Runtime/Scripts/Hero/HeroController.cs:120-123 | After Start the buffer is inactive |
| HeroController.Update | Assets/SSL/Runtime/Scripts/Hero/HeroController.cs:26-59 | The first command is the move intent; StartDash is sent iff E is held; StopJumpImpulsion iff impulsing, jump not held and min duration reached; JumpStart only if the entity could jump at the press check or at the buffer check; a held jump key while the entity can jump always starts a jump (the number of jump starts is stated by HeroController.JumpStartsPerFrame) |
| HeroController.PressWhileIneligibleReopensBuffer | Assets/SSL/Runtime/Scripts/Hero/HeroController.cs:33-49 | A jump key held while the entity cannot jump sets the timer to 0 instead of jumping; the buffer is then open iff its duration is positive, and a jump starts iff it is open and the entity can jump at the buffer check |
| HeroController.NoPressOnlyAdvancesBuffer | Assets/SSL/Runtime/Scripts/Hero/HeroController.cs:29-49 | Without the jump key the buffer only advances, and a jump starts iff the advanced buffer is open and the entity can jump |
| HeroController.PressWhileEligibleJumps | Assets/SSL/Runtime/Scripts/Hero/HeroController.cs:33-42 | A jump key held while the entity can jump sends JumpStart right after the move intent and does not touch the buffer beyond the frame's advance |
| HeroController.CommandsOrdered | Assets/SSL/Runtime/Scripts/Hero/HeroController.cs:26-59 | A frame sends 1 to 5 commands: the move intent only first, StopJumpImpulsion only followed by StartDash, StartDash only last |
| HeroController.JumpStartsPerFrame | Assets/SSL/Runtime/Scripts/Hero/HeroController.cs:33-58 | A frame sends one JumpStart per path that fires (the press of an entity that can jump, and the buffer still open after the press when the entity can jump), so at most two, and at most one StopJumpImpulsion and one StartDash |
| HeroController.ClosedBufferStaysClosed | Assets/SSL/Runtime/Scripts/Hero/HeroController.cs:29-49 | Over any frames without the jump key, a closed buffer stays closed with its timer unchanged |
| HeroController.TimerNeverDecreasesWithoutReset | Assets/SSL/Runtime/Scripts/Hero/HeroController.cs:29-113 | Over frames with dt >= 0 in which the jump key is never held while the entity cannot jump (the only reset), the timer never goes back and the duration stays |
| HeroController.ClosedNeverReopens | Assets/SSL/Runtime/Scripts/Hero/HeroController.cs:29-49 | If the buffer is open after frames without the jump key, it was open before them |
| HeroController.OpenBufferCloses | Assets/SSL/Runtime/Scripts/Hero/HeroController.cs:102-113 | Over n frames of at least `step` each without the jump key, the buffer closes or its timer grows by at least n*step; once n*step covers what remains, it is closed |
| CameraManager.Start | Assets/SSL/Runtime/Scripts/Camera/CameraManager.cs:37-47 | After Start the default profile is current, the camera frames it and no transition plays |
| CameraManager.IsPlayingProfileTransition | Assets/SSL/Runtime/Scripts/Camera/CameraManager.cs:95-98 | In a valid state (timer >= 0) a playing transition has a positive duration, so its fraction is defined; a non-positive duration never plays |
| CameraManager.PlayProfileTransition | Assets/SSL/Runtime/Scripts/Camera/CameraManager.cs:85-98 | The start framing is the camera's current one, the timer is 0 and the duration is the transition's; it plays iff that duration is positive |
| CameraManager.EnterProfile | Assets/SSL/Runtime/Scripts/Camera/CameraManager.cs:65-73 | The given profile always becomes current; with no transition the timer, duration and start framing are untouched; with one, a transition starts |
| CameraManager.ExitProfile | Assets/SSL/Runtime/Scripts/Camera/CameraManager.cs:75-83 | Exiting a profile that is not the current object (by identity) changes nothing; exiting the current one makes the default current, with a transition if given |
| CameraManager.TransitionPercent | Assets/SSL/Runtime/Scripts/Camera/CameraManager.cs:100-112 | The fraction times the duration is the timer; it is non-negative for a non-negative timer, and at least 1 iff the timer has reached the duration |
| CameraManager.Update | Assets/SSL/Runtime/Scripts/Camera/CameraManager.cs:49-63 | Not playing: the timer stays, the camera frames the current profile, and it is still not playing afterwards; playing: the timer advances by dt first, and the camera is interpolated by the fraction of the advanced timer |
| CameraManager.Step | Assets/SSL/Runtime/Scripts/Camera/CameraManager.cs:49-98 | Entering, exiting or a frame with dt >= 0 keeps the timer non-negative |
| CameraManager.Replay | Assets/SSL/Runtime/Scripts/Camera/CameraManager.cs:49-98 | Any mix of enter, exit and frame events with dt >= 0 keeps the timer non-negative |
| CameraManager.NoTransitionNeverPlays | Assets/SSL/Runtime/Scripts/Camera/CameraManager.cs:49-83 | From a stopped state, enter/exit events without transitions and frames never start a transition and keep timer and duration; after a frame the camera frames the current profile |
| CameraManager.FramesAdvanceTimer | Assets/SSL/Runtime/Scripts/Camera/CameraManager.cs:49-57 | Over n frames of dt, the profile and duration stay, and while still playing the timer has grown by exactly n*dt |
| CameraManager.TransitionSettles | Assets/SSL/Runtime/Scripts/Camera/CameraManager.cs:49-98 | Once n frames of dt cover what remains, the transition no longer plays, and the next frame frames the current profile exactly |

## Left out

- Physics: the rigidbody, the physics step and the ground raycasts (`GroundDetector.cs`) are left out. Ground contact is only an input of the controller.
- The jump itself: `JumpStart`, `StopJumpImpulsion` and the four jump queries are not defined in `HeroEntity.cs`. They are output commands and `EntityView` inputs, with no meaning given to them.
- Tuning records: `HeroDashSettings`, `HeroFallSettings`, `CameraProfile` and `CameraProfileTransition` are not part of this model. They are records with only the fields the code reads. The stray fields and methods at lines 13-38 of `HeroHorizontalMovementSettings.cs` are left out; the methods do not compile. `HeroJumpSettings.cs` is plain data that none of the modelled code reads.
- Composition: the controller's commands are not applied to a `Hero`. `HeroController.Update` (once per frame) and `HeroEntity.FixedUpdate` (once per physics tick) are modelled as separate machines, because the engine interleaves them by its own clocks. So nothing here follows, for example, how `StartDash`, which is sent on every frame E is held (`HeroController.cs:80-85`), keeps re-arming the countdown.
- Presentation: `OnGUI` debug panels, `_UpdateOrientVisual` (the sprite scale) and the `Awake`/`Instance` singleton are left out. The camera z coordinate is left out because the manager never writes it.
- Interpolation: `Mathf.Lerp` and `Vector3.Lerp` are a `lerp` parameter, so nothing is claimed about their clamping. As a consequence the frame that ends a transition is not claimed to land exactly on the profile; the frame after it is.
- Floating point: rounding and NaN are not modelled. Reals make every clamp exact.
- Object identity: the code compares camera profiles by reference. The model compares only the `id` field, which stands for that reference; a profile's other fields play no part in the comparison.
- HeroEntity.Initial: the serialized starting speed is taken as its declared default 0, and the rigidbody's starting velocity as (0, 0). The first tick overwrites both velocity components anyway.
- CameraManager.Update: requires a non-negative timer and dt. Every operation keeps the timer non-negative from `Start`, so this only rules out states the code never reaches. It keeps the fraction's division defined.
- CameraManager.Start: the camera's state before `Start` and the transition start framing before the first transition (the zero vector and size 0) play no part.

## Findings

| source | as written | input that shows it | evidently intended | confidence | as-written member | corrected member |
|---|---|---|---|---|---|---|
| Assets/SSL/Runtime/Scripts/Hero/HeroEntity.cs:52-60 | The dash speed is stored after the velocity is written. The next tick's `_Accelerate` clamps it back to `speedMax` before it is applied. So while a direction is held the way the hero faces, a dash never moves the hero faster than `speedMax`. | speedMax 5, dash speed 10, countdown 0.3, dt 0.02, input 1 facing 1, stored speed 10: the applied velocity x is 5 | a running dash moves the hero at the dash speed | medium; not executed | HeroEntity.FixedUpdate (with HeroEntity.DashSpeedNeverApplied and HeroEntity.HeldDirectionVelocityCappedDespiteDash) | HeroEntity.FixedUpdateDashApplied (with HeroEntity.DashAppliedMovesAtDashSpeed) |

The multi-tick lemmas (`RunKeepsSpeedInRange`, `DashPinsSpeed` and the others) are about the as-written tick, since that is what the code does. The corrected tick agrees with it whenever no dash runs (`DashAppliedAgreesWithoutDash`).

=== FILE: camera_manager.dfy ===
/** The camera's profile system (CameraManager): which profile is current,
    entering and leaving profiles, and the timed transition from where the
    camera was to the current profile's framing.

    The camera is reduced to the two things the manager writes: the x/y of
    its position and its orthographic size. `Time.deltaTime` is the
    parameter `dt`, and the engine's interpolation is the parameter `lerp`
    (start, end, fraction). */
module CameraManager {
  import opened RealMath

  datatype Option<T> = None | Some(value: T)

  datatype Vec2 = Vec2(x: real, y: real)

  /** A camera profile; `id` stands for the object's identity, which is what
      the manager compares (two profiles with equal settings are still
      different objects, and one object keeps its identity whatever its
      settings). */
  datatype Profile = Profile(id: nat, position: Vec2, cameraSize: real)

  datatype Transition = Transition(duration: real)

  datatype Camera = Camera(position: Vec2, size: real)

  datatype Manager = Manager(
    defaultProfile: Profile,
    current: Profile,
    transitionTimer: real,
    transitionDuration: real,
    transitionStartPosition: Vec2,
    transitionStartSize: real,
    camera: Camera)

  /** The camera framed exactly as a profile asks. */
  function Framing(p: Profile): Camera
  {
    Camera(p.position, p.cameraSize)
  }

  /** The state every operation keeps: the transition timer is never
      negative, so a playing transition always has a positive duration. */
  predicate Valid(m: Manager)
  {
    m.transitionTimer >= 0.0
  }

  /** A transition plays while its timer has not reached its duration; in a
      valid state that needs a positive duration. */
  predicate IsPlayingProfileTransition(m: Manager)
    ensures Valid(m) && IsPlayingProfileTransition(m) ==> m.transitionDuration > 0.0
    ensures m.transitionDuration <= 0.0 && Valid(m) ==> !IsPlayingProfileTransition(m)
  {
    m.transitionTimer < m.transitionDuration
  }

  /** The manager after `Start`: the default profile is current, the camera
      frames it, and no transition plays (timer and duration both at 0). */
  function Start(defaultProfile: Profile): (m: Manager)
    ensures Valid(m) && !IsPlayingProfileTransition(m)
    ensures m.current == defaultProfile && m.defaultProfile == defaultProfile
    ensures m.camera == Framing(defaultProfile)
  {
    Manager(defaultProfile, defaultProfile, 0.0, 0.0, Vec2(0.0, 0.0), 0.0, Framing(defaultProfile))
  }

  /** A transition starts from where the camera is now, with the timer at 0
      and the transition's duration; it plays iff that duration is positive. */
  function PlayProfileTransition(m: Manager, t: Transition): (r: Manager)
    ensures r.transitionTimer == 0.0 && r.transitionDuration == t.duration
    ensures r.transitionStartPosition == m.camera.position
    ensures r.transitionStartSize == m.camera.size
    ensures Valid(r)
    ensures IsPlayingProfileTransition(r) <==> t.duration > 0.0
    ensures r.current == m.current && r.camera == m.camera && r.defaultProfile == m.defaultProfile
  {
    m.(transitionStartPosition := m.camera.position,
       transitionStartSize := m.camera.size,
       transitionTimer := 0.0,
       transitionDuration := t.duration)
  }

  /** Entering a profile always makes it current; with no transition nothing
      else changes. */
  function EnterProfile(m: Manager, p: Profile, t: Option<Transition>): (r: Manager)
    ensures r.current == p
    ensures r.camera == m.camera && r.defaultProfile == m.defaultProfile
    ensures t.None? ==> r == m.(current := p)
    ensures t.Some? ==> r == PlayProfileTransition(m.(current := p), t.value)
    ensures Valid(m) ==> Valid(r)
  {
    var entered := m.(current := p);
    if t.Some? then PlayProfileTransition(entered, t.value) else entered
  }

  /** Leaving a profile that is not current changes nothing; leaving the
      current one returns to the default profile, with the transition if
      one is given. */
  function ExitProfile(m: Manager, p: Profile, t: Option<Transition>): (r: Manager)
    ensures m.current.id != p.id ==> r == m
    ensures m.current.id == p.id ==> r.current == m.defaultProfile
    ensures m.current.id == p.id && t.None? ==> r == m.(current := m.defaultProfile)
    ensures m.current.id == p.id && t.Some? ==>
              r == PlayProfileTransition(m.(current := m.defaultProfile), t.value)
    ensures r.camera == m.camera && r.defaultProfile == m.defaultProfile
    ensures Valid(m) ==> Valid(r)
  {
    if m.current.id != p.id then m
    else
      var exited := m.(current := m.defaultProfile);
      if t.Some? then PlayProfileTransition(exited, t.value) else exited
  }

  /** The fraction of the transition elapsed. */
  function TransitionPercent(m: Manager): (r: real)
    requires m.transitionDuration > 0.0
    ensures r * m.transitionDuration == m.transitionTimer
    ensures m.transitionTimer >= 0.0 ==> r >= 0.0
    ensures m.transitionTimer >= m.transitionDuration <==> r >= 1.0
  {
    var r := m.transitionTimer / m.transitionDuration;
    assert r * m.transitionDuration == m.transitionTimer;
    AtLeastOneScaled(r, m.transitionDuration);
    r
  }

  /** One frame. While a transition plays, the timer advances first and the
      camera is then interpolated from the transition's start to the current
      profile by the new fraction elapsed; otherwise the camera frames the
      current profile and the timer stays. */
  function Update(m: Manager, dt: real, lerp: (real, real, real) -> real): (r: Manager)
    requires Valid(m) && dt >= 0.0
    ensures Valid(r)
    ensures r.current == m.current && r.defaultProfile == m.defaultProfile
    ensures r.transitionDuration == m.transitionDuration
    ensures r.transitionStartPosition == m.transitionStartPosition
    ensures r.transitionStartSize == m.transitionStartSize
    ensures !IsPlayingProfileTransition(m) ==>
              r.transitionTimer == m.transitionTimer && r.camera == Framing(m.current)
              && !IsPlayingProfileTransition(r)
    ensures IsPlayingProfileTransition(m) ==>
              && r.transitionTimer == m.transitionTimer + dt
              && var f := TransitionPercent(r);
                 && r.camera.position.x == lerp(m.transitionStartPosition.x, m.current.position.x, f)
                 && r.camera.position.y == lerp(m.transitionStartPosition.y, m.current.position.y, f)
                 && r.camera.size == lerp(m.transitionStartSize, m.current.cameraSize, f)
  {
    if IsPlayingProfileTransition(m) then
      var advanced := m.(transitionTimer := m.transitionTimer + dt);
      var f := TransitionPercent(advanced);
      var start := m.transitionStartPosition;
      var end := m.current.position;
      var position := Vec2(lerp(start.x, end.x, f), lerp(start.y, end.y, f));
      advanced.(camera := Camera(position, lerp(m.transitionStartSize, m.current.cameraSize, f)))
    else
      m.(camera := Framing(m.current))
  }

  /** The things that happen to the manager: entering or leaving a profile,
      or a frame of `dt` seconds. */
  datatype Event =
    | Enter(profile: Profile, transition: Option<Transition>)
    | Exit(profile: Profile, transition: Option<Transition>)
    | Tick(dt: real)

  predicate WellFormed(e: Event)
  {
    e.Tick? ==> e.dt >= 0.0
  }

  function Step(m: Manager, e: Event, lerp: (real, real, real) -> real): (r: Manager)
    requires Valid(m) && WellFormed(e)
    ensures Valid(r)
  {
    match e
    case Enter(p, t) => EnterProfile(m, p, t)
    case Exit(p, t) => ExitProfile(m, p, t)
    case Tick(dt) => Update(m, dt, lerp)
  }

  function Replay(m: Manager, events: seq<Event>, lerp: (real, real, real) -> real): (r: Manager)
    requires Valid(m)
    requires forall k :: 0 <= k < |events| ==> WellFormed(events[k])
    ensures Valid(r)
    decreases |events|
  {
    if |events| == 0 then m
    else Replay(Step(m, events[0], lerp), events[1..], lerp)
  }

  /** Without transitions nothing ever plays: from a manager that is not
      playing, any mix of profile changes and frames keeps the timer and
      duration as they were, and after a frame the camera frames the
      current profile exactly. */
  lemma {:induction false} NoTransitionNeverPlays(m: Manager, events: seq<Event>,
                                                  lerp: (real, real, real) -> real)
    requires Valid(m) && !IsPlayingProfileTransition(m)
    requires forall k :: 0 <= k < |events| ==> WellFormed(events[k])
    requires forall k :: 0 <= k < |events| ==> !events[k].Tick? ==> events[k].transition.None?
    ensures var r := Replay(m, events, lerp);
      && !IsPlayingProfileTransition(r)
      && r.transitionTimer == m.transitionTimer
      && r.transitionDuration == m.transitionDuration
    ensures |events| > 0 && events[|events| - 1].Tick? ==>
              Replay(m, events, lerp).camera == Framing(Replay(m, events, lerp).current)
    decreases |events|
  {
    if |events| > 0 {
      var next := Step(m, events[0], lerp);
      assert forall k :: 0 <= k < |events[1..]| ==> events[1..][k] == events[k + 1];
      NoTransitionNeverPlays(next, events[1..], lerp);
      if |events| == 1 && events[0].Tick? {
        assert Replay(next, events[1..], lerp) == next;
      }
    }
  }

  /** `n` frames of `dt` each. */
  function Frames(m: Manager, dt: real, n: nat, lerp: (real, real, real) -> real): (r: Manager)
    requires Valid(m) && dt >= 0.0
    ensures Valid(r)
  {
    if n == 0 then m else Update(Frames(m, dt, n - 1, lerp), dt, lerp)
  }

  lemma {:induction false} FramesAdvanceTimer(m: Manager, dt: real, n: nat, lerp: (real, real, real) -> real)
    requires Valid(m) && dt >= 0.0
    ensures var r := Frames(m, dt, n, lerp);
      && r.current == m.current
      && r.transitionDuration == m.transitionDuration
      && (!IsPlayingProfileTransition(r) || r.transitionTimer == m.transitionTimer + Repeated(n, dt))
  {
    if n > 0 {
      FramesAdvanceTimer(m, dt, n - 1, lerp);
      var prev := Frames(m, dt, n - 1, lerp);
      if IsPlayingProfileTransition(Frames(m, dt, n, lerp)) {
        assert IsPlayingProfileTransition(prev);
      }
    }
  }

  /** A transition ends: once `n` frames of `dt` cover what remains of it, it
      no longer plays, and the frame after that frames the current profile
      exactly. */
  lemma TransitionSettles(m: Manager, dt: real, n: nat, lerp: (real, real, real) -> real)
    requires Valid(m) && dt >= 0.0
    requires (n as real) * dt >= m.transitionDuration - m.transitionTimer
    ensures !IsPlayingProfileTransition(Frames(m, dt, n, lerp))
    ensures Frames(m, dt, n + 1, lerp).camera == Framing(m.current)
  {
    FramesAdvanceTimer(m, dt, n, lerp);
    RepeatedIsProduct(n, dt);
  }
}

=== FILE: hero_controller.dfy ===
/** The per-frame input handling of the hero (HeroController.Update): the
    move intent read from the keyboard, the jump-buffer timer, and the
    commands sent to the hero entity.

    Keys held this frame are booleans, `Time.deltaTime` is the parameter
    `dt`. The entity's jump queries are answered by `EntityView` snapshots
    and its jump commands are output events: their behaviour lives outside
    this model, so each query point gets its own snapshot (the entity may have
    changed after a command earlier in the same frame). */
module HeroController {
  import opened RealMath

  /** The keys the controller polls, held or not this frame. */
  datatype Keys = Keys(a: bool, q: bool, d: bool, space: bool, e: bool)

  /** What the entity answers when the controller asks about the jump. */
  datatype EntityView = EntityView(
    isTouchingGround: bool,
    isJumping: bool,
    isJumpImpulsing: bool,
    isJumpMinDurationReached: bool)
  {
    /** The condition both jump paths test before starting a jump. */
    predicate CanStartJump() {
      isTouchingGround && !isJumping
    }
  }

  /** Calls the controller makes on the entity, in the order it makes them. */
  datatype Command = SetMoveDirX(dirX: real) | JumpStart | StopJumpImpulsion | StartDash

  /** The jump buffer: open while `timer < duration`. */
  datatype Controller = Controller(jumpBufferDuration: real, jumpBufferTimer: real)

  datatype Frame = Frame(controller: Controller, commands: seq<Command>)

  /** The move intent: left (A or Q) gives -1, right (D) gives 1 and wins
      when both sides are held, nothing gives 0. */
  function InputMoveX(k: Keys): (r: real)
    ensures r == -1.0 || r == 0.0 || r == 1.0
    ensures r == 1.0 <==> k.d
    ensures r == -1.0 <==> !k.d && (k.a || k.q)
    ensures r == 0.0 <==> !k.a && !k.q && !k.d
  {
    var left := if k.a || k.q then -1.0 else 0.0;
    if k.d then 1.0 else left
  }

  /** The buffer is open while its timer has not reached its duration: a
      cancelled buffer (timer at the duration) is closed, and an open buffer
      with a non-negative timer has a positive duration. */
  predicate IsJumpBufferActive(c: Controller)
    ensures c.jumpBufferTimer == c.jumpBufferDuration ==> !IsJumpBufferActive(c)
    ensures c.jumpBufferTimer >= 0.0 && IsJumpBufferActive(c) ==> c.jumpBufferDuration > 0.0
    ensures c.jumpBufferTimer == 0.0 ==> (IsJumpBufferActive(c) <==> c.jumpBufferDuration > 0.0)
  {
    c.jumpBufferTimer < c.jumpBufferDuration
  }

  /** Re-opens the buffer from the beginning. */
  function ResetJumpBuffer(c: Controller): (r: Controller)
    ensures r.jumpBufferTimer == 0.0 && r.jumpBufferDuration == c.jumpBufferDuration
    ensures IsJumpBufferActive(r) <==> c.jumpBufferDuration > 0.0
  {
    c.(jumpBufferTimer := 0.0)
  }

  /** Closes the buffer by moving the timer to its end. */
  function CancelJumpBuffer(c: Controller): (r: Controller)
    ensures !IsJumpBufferActive(r)
    ensures r.jumpBufferDuration == c.jumpBufferDuration
  {
    c.(jumpBufferTimer := c.jumpBufferDuration)
  }

  /** A closed buffer does not move; an open one advances by `dt`. */
  function UpdateJumpBuffer(c: Controller, dt: real): (r: Controller)
    ensures !IsJumpBufferActive(c) ==> r == c
    ensures IsJumpBufferActive(c) ==> r.jumpBufferTimer == c.jumpBufferTimer + dt
    ensures r.jumpBufferDuration == c.jumpBufferDuration
    ensures dt >= 0.0 ==> r.jumpBufferTimer >= c.jumpBufferTimer
  {
    if !IsJumpBufferActive(c) then c
    else c.(jumpBufferTimer := c.jumpBufferTimer + dt)
  }

  /** The controller as the scene creates it (timer 0) and then starts it. */
  function Start(jumpBufferDuration: real): (c: Controller)
    ensures !IsJumpBufferActive(c)
    ensures c.jumpBufferDuration == jumpBufferDuration
  {
    CancelJumpBuffer(Controller(jumpBufferDuration, 0.0))
  }

  /** One frame: advance the buffer, send the move intent, handle the jump
      key (start a jump or re-open the buffer), try the buffered jump, cut
      the jump impulsion on release, and start a dash while E is held.
      `pressView`, `bufferView` and `impulseView` are the entity's answers at
      the three places the frame asks. The jump key counts as pressed
      whenever it is held. */
  function Update(c: Controller, keys: Keys, pressView: EntityView, bufferView: EntityView,
                  impulseView: EntityView, dt: real): (f: Frame)
    ensures |f.commands| >= 1 && f.commands[0] == SetMoveDirX(InputMoveX(keys))
    ensures f.controller.jumpBufferDuration == c.jumpBufferDuration
    ensures StartDash in f.commands <==> keys.e
    ensures StopJumpImpulsion in f.commands <==>
              impulseView.isJumpImpulsing && !keys.space && impulseView.isJumpMinDurationReached
    ensures JumpStart in f.commands ==> pressView.CanStartJump() || bufferView.CanStartJump()
    ensures keys.space && pressView.CanStartJump() ==> JumpStart in f.commands
  {
    var advanced := UpdateJumpBuffer(c, dt);
    var move := [SetMoveDirX(InputMoveX(keys))];
    var pressJump := keys.space && pressView.CanStartJump();
    var afterPress := if keys.space && !pressView.CanStartJump() then ResetJumpBuffer(advanced) else advanced;
    var bufferJump := IsJumpBufferActive(afterPress) && bufferView.CanStartJump();
    var stop := impulseView.isJumpImpulsing && !keys.space && impulseView.isJumpMinDurationReached;
    var pressed: seq<Command> := if pressJump then [JumpStart] else [];
    var buffered: seq<Command> := if bufferJump then [JumpStart] else [];
    var stopped: seq<Command> := if stop then [StopJumpImpulsion] else [];
    var dashed: seq<Command> := if keys.e then [StartDash] else [];
    var commands := move + pressed + buffered + stopped + dashed;
    Frame(afterPress, commands)
  }

  /** A jump key held while the entity cannot jump re-opens the buffer
      (timer back to 0) instead of jumping, and the buffer is then tried in
      the same frame. */
  lemma PressWhileIneligibleReopensBuffer(c: Controller, keys: Keys, pressView: EntityView,
                                          bufferView: EntityView, impulseView: EntityView, dt: real)
    requires keys.space && !pressView.CanStartJump()
    ensures Update(c, keys, pressView, bufferView, impulseView, dt).controller.jumpBufferTimer == 0.0
    ensures var f := Update(c, keys, pressView, bufferView, impulseView, dt);
      IsJumpBufferActive(f.controller) <==> c.jumpBufferDuration > 0.0
    ensures var f := Update(c, keys, pressView, bufferView, impulseView, dt);
      JumpStart in f.commands <==> c.jumpBufferDuration > 0.0 && bufferView.CanStartJump()
  {
  }

  /** Without the jump key the buffer only advances, and a jump starts
      exactly when the advanced buffer is still open and the entity can jump. */
  lemma NoPressOnlyAdvancesBuffer(c: Controller, keys: Keys, pressView: EntityView,
                                  bufferView: EntityView, impulseView: EntityView, dt: real)
    requires !keys.space
    ensures Update(c, keys, pressView, bufferView, impulseView, dt).controller == UpdateJumpBuffer(c, dt)
    ensures var f := Update(c, keys, pressView, bufferView, impulseView, dt);
      JumpStart in f.commands <==> IsJumpBufferActive(UpdateJumpBuffer(c, dt)) && bufferView.CanStartJump()
  {
  }

  /** A jump key held while the entity can jump starts the jump and leaves
      the buffer where the frame's advance put it. */
  lemma PressWhileEligibleJumps(c: Controller, keys: Keys, pressView: EntityView,
                                bufferView: EntityView, impulseView: EntityView, dt: real)
    requires keys.space && pressView.CanStartJump()
    ensures Update(c, keys, pressView, bufferView, impulseView, dt).controller == UpdateJumpBuffer(c, dt)
    ensures Update(c, keys, pressView, bufferView, impulseView, dt).commands[1] == JumpStart
  {
  }

  /** The frame's commands in order: the move intent first and only there,
      nothing but the dash start after an impulsion stop, and the dash start
      last. `JumpStartsPerFrame` counts each kind. */
  lemma CommandsOrdered(c: Controller, keys: Keys, pressView: EntityView,
                        bufferView: EntityView, impulseView: EntityView, dt: real)
    ensures var cs := Update(c, keys, pressView, bufferView, impulseView, dt).commands;
      && 1 <= |cs| <= 5
      && (forall i :: 1 <= i < |cs| ==> !cs[i].SetMoveDirX?)
      && (forall i, j :: 0 <= i < j < |cs| && cs[i] == StopJumpImpulsion ==> cs[j] == StartDash)
      && (forall i :: 0 <= i < |cs| - 1 ==> cs[i] != StartDash)
  {
  }

  /** A frame sends one jump start for each path that fires: the press of an
      entity that can jump, and the buffer still open after the press when
      the entity can jump at that point. So a frame sends at most two, and at
      most one impulsion stop and one dash start. */
  lemma JumpStartsPerFrame(c: Controller, keys: Keys, pressView: EntityView,
                           bufferView: EntityView, impulseView: EntityView, dt: real)
    ensures var f := Update(c, keys, pressView, bufferView, impulseView, dt);
      multiset(f.commands)[JumpStart]
      == (if keys.space && pressView.CanStartJump() then 1 else 0)
         + (if IsJumpBufferActive(f.controller) && bufferView.CanStartJump() then 1 else 0)
    ensures var cs := Update(c, keys, pressView, bufferView, impulseView, dt).commands;
      && multiset(cs)[JumpStart] <= 2
      && multiset(cs)[StopJumpImpulsion] <= 1
      && multiset(cs)[StartDash] <= 1
  {
    var f := Update(c, keys, pressView, bufferView, impulseView, dt);
    var pressed: seq<Command> := if keys.space && pressView.CanStartJump() then [JumpStart] else [];
    var buffered: seq<Command> :=
      if IsJumpBufferActive(f.controller) && bufferView.CanStartJump() then [JumpStart] else [];
    var stopped: seq<Command> :=
      if impulseView.isJumpImpulsing && !keys.space && impulseView.isJumpMinDurationReached
      then [StopJumpImpulsion] else [];
    var dashed: seq<Command> := if keys.e then [StartDash] else [];
    var move := [SetMoveDirX(InputMoveX(keys))];
    assert f.commands == move + pressed + buffered + stopped + dashed;
    Concat5(move, pressed, buffered, stopped, dashed);
  }

  /** The multiset of five joined sequences, split into its parts. */
  lemma Concat5(a: seq<Command>, b: seq<Command>, c: seq<Command>, d: seq<Command>, e: seq<Command>)
    ensures multiset(a + b + c + d + e) == multiset(a) + multiset(b) + multiset(c) + multiset(d) + multiset(e)
  {
  }

  /** Frames with jump inputs given per frame. */
  datatype FrameInput = FrameInput(keys: Keys, pressView: EntityView, bufferView: EntityView,
                                   impulseView: EntityView, dt: real)

  function AfterFrames(c: Controller, inputs: seq<FrameInput>): Controller
    decreases |inputs|
  {
    if |inputs| == 0 then c
    else
      var i := inputs[0];
      AfterFrames(Update(c, i.keys, i.pressView, i.bufferView, i.impulseView, i.dt).controller,
                  inputs[1..])
  }

  /** Only the jump key can open the buffer: over any frames without it, a
      closed buffer stays closed and its timer does not move. */
  lemma {:induction false} ClosedBufferStaysClosed(c: Controller, inputs: seq<FrameInput>)
    requires !IsJumpBufferActive(c)
    requires forall k :: 0 <= k < |inputs| ==> !inputs[k].keys.space
    ensures AfterFrames(c, inputs) == c
    decreases |inputs|
  {
    if |inputs| > 0 {
      var i := inputs[0];
      assert Update(c, i.keys, i.pressView, i.bufferView, i.impulseView, i.dt).controller == c;
      ClosedBufferStaysClosed(c, inputs[1..]);
    }
  }

  /** Only a reset lowers the timer: over frames with non-negative frame
      times in which the jump key is never held while the entity cannot jump,
      the timer never goes back. */
  lemma {:induction false} TimerNeverDecreasesWithoutReset(c: Controller, inputs: seq<FrameInput>)
    requires forall k :: 0 <= k < |inputs| ==>
               !(inputs[k].keys.space && !inputs[k].pressView.CanStartJump()) && inputs[k].dt >= 0.0
    ensures AfterFrames(c, inputs).jumpBufferTimer >= c.jumpBufferTimer
    ensures AfterFrames(c, inputs).jumpBufferDuration == c.jumpBufferDuration
    decreases |inputs|
  {
    if |inputs| > 0 {
      var i := inputs[0];
      TimerNeverDecreasesWithoutReset(
        Update(c, i.keys, i.pressView, i.bufferView, i.impulseView, i.dt).controller, inputs[1..]);
    }
  }

  /** An open buffer closes: after frames of at least `step` each without the
      jump key, the timer has advanced by at least the frames' total or the
      buffer has closed; enough frames close it. */
  lemma {:induction false} OpenBufferCloses(c: Controller, inputs: seq<FrameInput>, step: real)
    requires step > 0.0
    requires forall k :: 0 <= k < |inputs| ==> !inputs[k].keys.space && inputs[k].dt >= step
    ensures !IsJumpBufferActive(AfterFrames(c, inputs))
            || AfterFrames(c, inputs).jumpBufferTimer >= c.jumpBufferTimer + (|inputs| as real) * step
    ensures (|inputs| as real) * step >= c.jumpBufferDuration - c.jumpBufferTimer ==>
              !IsJumpBufferActive(AfterFrames(c, inputs))
    decreases |inputs|
  {
    OpenBufferClosesSum(c, inputs, step);
    RepeatedIsProduct(|inputs|, step);
  }

  lemma {:induction false} OpenBufferClosesSum(c: Controller, inputs: seq<FrameInput>, step: real)
    requires step > 0.0
    requires forall k :: 0 <= k < |inputs| ==> !inputs[k].keys.space && inputs[k].dt >= step
    ensures !IsJumpBufferActive(AfterFrames(c, inputs))
            || AfterFrames(c, inputs).jumpBufferTimer >= c.jumpBufferTimer + Repeated(|inputs|, step)
    ensures AfterFrames(c, inputs).jumpBufferDuration == c.jumpBufferDuration
    decreases |inputs|
  {
    if |inputs| > 0 {
      var i := inputs[0];
      var next := Update(c, i.keys, i.pressView, i.bufferView, i.impulseView, i.dt).controller;
      assert next == UpdateJumpBuffer(c, i.dt);
      assert forall k :: 0 <= k < |inputs[1..]| ==> inputs[1..][k] == inputs[k + 1];
      OpenBufferClosesSum(next, inputs[1..], step);
      if IsJumpBufferActive(AfterFrames(next, inputs[1..])) {
        ClosedNeverReopens(next, inputs[1..]);
        assert IsJumpBufferActive(next);
        assert IsJumpBufferActive(c);
        assert Repeated(|inputs|, step) == Repeated(|inputs| - 1, step) + step;
      }
    }
  }

  lemma {:induction false} ClosedNeverReopens(c: Controller, inputs: seq<FrameInput>)
    requires forall k :: 0 <= k < |inputs| ==> !inputs[k].keys.space
    requires IsJumpBufferActive(AfterFrames(c, inputs))
    ensures IsJumpBufferActive(c)
    decreases |inputs|
  {
    if !IsJumpBufferActive(c) {
      ClosedBufferStaysClosed(c, inputs);
    }
  }
}

=== FILE: hero_entity.dfy ===
/** The hero's per-physics-tick locomotion update (HeroEntity.FixedUpdate):
    horizontal speed with acceleration, deceleration and turn-back friction,
    facing direction, clamped fall gravity, the velocity written to the
    rigidbody, and the dash countdown that overrides the horizontal speed.

    Every engine float is a `real`; `Time.fixedDeltaTime` is the parameter
    `dt`; the rigidbody's velocity is the `velocity` field of the state. */
module HeroEntity {
  import opened RealMath

  /** Horizontal tuning. The script reads `deceleration` and
      `turnBackFrictions` although `HeroHorizontalMovementSettings` declares only
      `acceleration` and `speedMax`. */
  datatype MovementSettings = MovementSettings(
    acceleration: real,
    speedMax: real,
    deceleration: real,
    turnBackFrictions: real)
  {
    predicate NonNegative() {
      acceleration >= 0.0 && speedMax >= 0.0 && deceleration >= 0.0 && turnBackFrictions >= 0.0
    }
  }

  datatype DashSettings = DashSettings(duration: real, speed: real)

  /** Fall tuning; `fallSpeedMax` is the floor on vertical speed (a negative
      value in practice). The script spells the gravity field `fallGrativy`. */
  datatype FallSettings = FallSettings(fallGravity: real, fallSpeedMax: real)

  datatype Settings = Settings(movement: MovementSettings, dash: DashSettings, fall: FallSettings)

  datatype Velocity = Velocity(x: real, y: real)

  /** The fields of the hero that the tick reads and writes. */
  datatype Hero = Hero(
    horizontalSpeed: real,
    moveDirX: real,
    countDownDash: real,
    orientX: real,
    verticalSpeed: real,
    velocity: Velocity)

  /** The hero as the field initialisers leave it: at rest, facing right,
      with the dash countdown expired. */
  function Initial(): (h: Hero)
    ensures h.horizontalSpeed == 0.0 && h.verticalSpeed == 0.0 && h.moveDirX == 0.0
    ensures h.orientX == 1.0
    ensures h.countDownDash == -1.0
  {
    Hero(0.0, 0.0, -1.0, 1.0, 0.0, Velocity(0.0, 0.0))
  }

  /** The controller's per-frame move intent; nothing else changes. */
  function SetMoveDirX(h: Hero, dirX: real): (r: Hero)
    ensures r.moveDirX == dirX
    ensures r.(moveDirX := h.moveDirX) == h
  {
    h.(moveDirX := dirX)
  }

  /** Re-orientation: a no-op on zero input, otherwise the facing follows the
      sign of the input, so the hero then faces the way it is pushed. */
  function ChangeOrientFromHorizontalMovement(h: Hero): (r: Hero)
    ensures h.moveDirX == 0.0 ==> r == h
    ensures h.moveDirX != 0.0 ==> r.orientX == Sign(h.moveDirX)
    ensures h.moveDirX != 0.0 ==> r.orientX * h.moveDirX > 0.0
    ensures IsUnit(h.orientX) ==> IsUnit(r.orientX)
    ensures r.(orientX := h.orientX) == h
  {
    if h.moveDirX == 0.0 then h
    else h.(orientX := Sign(h.moveDirX))
  }

  /** Acceleration, capped at the top speed whatever the starting speed. */
  function Accelerate(h: Hero, m: MovementSettings, dt: real): (r: Hero)
    ensures r.horizontalSpeed == Min(h.horizontalSpeed + m.acceleration * dt, m.speedMax)
    ensures r.horizontalSpeed <= m.speedMax
    ensures r.(horizontalSpeed := h.horizontalSpeed) == h
  {
    var speed := h.horizontalSpeed + m.acceleration * dt;
    if speed > m.speedMax then h.(horizontalSpeed := m.speedMax)
    else h.(horizontalSpeed := speed)
  }

  /** Deceleration, floored at zero: speed is never negative afterwards. */
  function Decelerate(h: Hero, m: MovementSettings, dt: real): (r: Hero)
    ensures r.horizontalSpeed == Max(h.horizontalSpeed - m.deceleration * dt, 0.0)
    ensures r.horizontalSpeed >= 0.0
    ensures r.(horizontalSpeed := h.horizontalSpeed) == h
  {
    var speed := h.horizontalSpeed - m.deceleration * dt;
    if speed < 0.0 then h.(horizontalSpeed := 0.0)
    else h.(horizontalSpeed := speed)
  }

  /** Turn-back friction, floored at zero. The facing is re-derived from the
      input only on the tick the floor is hit. */
  function TurnBack(h: Hero, m: MovementSettings, dt: real): (r: Hero)
    ensures r.horizontalSpeed == Max(h.horizontalSpeed - m.turnBackFrictions * dt, 0.0)
    ensures h.horizontalSpeed - m.turnBackFrictions * dt >= 0.0 ==> r.orientX == h.orientX
    ensures h.horizontalSpeed - m.turnBackFrictions * dt < 0.0 && h.moveDirX != 0.0 ==>
              r.orientX == Sign(h.moveDirX)
    ensures IsUnit(h.orientX) ==> IsUnit(r.orientX)
    ensures r.(horizontalSpeed := h.horizontalSpeed, orientX := h.orientX) == h
  {
    var speed := h.horizontalSpeed - m.turnBackFrictions * dt;
    if speed < 0.0 then ChangeOrientFromHorizontalMovement(h.(horizontalSpeed := 0.0))
    else h.(horizontalSpeed := speed)
  }

  /** The input points against the facing: for a unit facing, exactly when
      there is input and its sign differs from the facing. */
  predicate AreOrientAndMovementOpposite(h: Hero)
    ensures h.moveDirX == 0.0 ==> !AreOrientAndMovementOpposite(h)
    ensures IsUnit(h.orientX) ==>
              (AreOrientAndMovementOpposite(h) <==> h.moveDirX != 0.0 && Sign(h.moveDirX) != h.orientX)
  {
    h.moveDirX * h.orientX < 0.0
  }

  /** Accelerate on any input, decelerate on none. */
  function UpdateHorizontalSpeed(h: Hero, m: MovementSettings, dt: real): (r: Hero)
    ensures h.moveDirX != 0.0 ==>
              r.horizontalSpeed == Min(h.horizontalSpeed + m.acceleration * dt, m.speedMax)
    ensures h.moveDirX == 0.0 ==>
              r.horizontalSpeed == Max(h.horizontalSpeed - m.deceleration * dt, 0.0)
    ensures h.moveDirX != 0.0 ==> r.horizontalSpeed <= m.speedMax
    ensures h.moveDirX != 0.0 && m.acceleration * dt >= 0.0 ==>
              r.horizontalSpeed >= Min(h.horizontalSpeed, m.speedMax)
    ensures h.moveDirX == 0.0 ==> r.horizontalSpeed >= 0.0
    ensures h.moveDirX == 0.0 && m.deceleration * dt >= 0.0 ==>
              r.horizontalSpeed <= Max(h.horizontalSpeed, 0.0)
    ensures r.(horizontalSpeed := h.horizontalSpeed) == h
  {
    if h.moveDirX != 0.0 then Accelerate(h, m, dt) else Decelerate(h, m, dt)
  }

  /** Starting a dash (re)arms the countdown with the dash duration. */
  function StartDash(h: Hero, d: DashSettings): (r: Hero)
    ensures r.countDownDash == d.duration
    ensures d.duration > 0.0 ==> r.countDownDash > 0.0
    ensures r.(countDownDash := h.countDownDash) == h
  {
    h.(countDownDash := d.duration)
  }

  /** One step of the dash: while the countdown runs it is reduced by `dt`
      and the speed is pinned to the dash speed; otherwise the speed is set
      to the top speed (a branch the tick never reaches). */
  function UpdateSpeedDash(h: Hero, s: Settings, dt: real): (r: Hero)
    ensures h.countDownDash > 0.0 ==>
              r.horizontalSpeed == s.dash.speed && r.countDownDash == h.countDownDash - dt
    ensures h.countDownDash <= 0.0 ==>
              r.horizontalSpeed == s.movement.speedMax && r.countDownDash == h.countDownDash
    ensures r.(horizontalSpeed := h.horizontalSpeed, countDownDash := h.countDownDash) == h
  {
    if h.countDownDash > 0.0 then
      h.(countDownDash := h.countDownDash - dt, horizontalSpeed := s.dash.speed)
    else
      h.(horizontalSpeed := s.movement.speedMax)
  }

  /** Fall gravity, floored at the maximal fall speed. */
  function ApplyFallGravity(h: Hero, f: FallSettings, dt: real): (r: Hero)
    ensures r.verticalSpeed == Max(h.verticalSpeed - f.fallGravity * dt, f.fallSpeedMax)
    ensures r.verticalSpeed >= f.fallSpeedMax
    ensures r.(verticalSpeed := h.verticalSpeed) == h
  {
    var v := h.verticalSpeed - f.fallGravity * dt;
    if v < f.fallSpeedMax then h.(verticalSpeed := f.fallSpeedMax)
    else h.(verticalSpeed := v)
  }

  /** Writes the signed horizontal speed into the velocity's x. */
  function ApplyHorizontalSpeed(h: Hero): (r: Hero)
    ensures r.velocity.x == h.horizontalSpeed * h.orientX
    ensures r.velocity.y == h.velocity.y
    ensures r.(velocity := h.velocity) == h
  {
    h.(velocity := h.velocity.(x := h.horizontalSpeed * h.orientX))
  }

  /** Writes the vertical speed into the velocity's y. */
  function ApplyVerticalSpeed(h: Hero): (r: Hero)
    ensures r.velocity.y == h.verticalSpeed
    ensures r.velocity.x == h.velocity.x
    ensures r.(velocity := h.velocity) == h
  {
    h.(velocity := h.velocity.(y := h.verticalSpeed))
  }

  /** The horizontal part of the tick: turn back against the input, or
      accelerate/decelerate and then re-orient. */
  function HorizontalStep(h: Hero, m: MovementSettings, dt: real): (r: Hero)
    ensures IsUnit(h.orientX) ==> IsUnit(r.orientX)
    ensures AreOrientAndMovementOpposite(h) ==>
              r.horizontalSpeed == Max(h.horizontalSpeed - m.turnBackFrictions * dt, 0.0)
    ensures AreOrientAndMovementOpposite(h) && h.horizontalSpeed - m.turnBackFrictions * dt >= 0.0 ==>
              r.orientX == h.orientX
    ensures AreOrientAndMovementOpposite(h) && h.horizontalSpeed - m.turnBackFrictions * dt < 0.0 ==>
              r.orientX == Sign(h.moveDirX)
    ensures !AreOrientAndMovementOpposite(h) && h.moveDirX != 0.0 ==>
              r.horizontalSpeed == Min(h.horizontalSpeed + m.acceleration * dt, m.speedMax)
              && r.orientX == Sign(h.moveDirX)
    ensures h.moveDirX == 0.0 ==>
              r.horizontalSpeed == Max(h.horizontalSpeed - m.deceleration * dt, 0.0)
              && r.orientX == h.orientX
    ensures r.(horizontalSpeed := h.horizontalSpeed, orientX := h.orientX) == h
  {
    if AreOrientAndMovementOpposite(h) then TurnBack(h, m, dt)
    else ChangeOrientFromHorizontalMovement(UpdateHorizontalSpeed(h, m, dt))
  }

  /** One physics tick, in the script's order: horizontal step, fall gravity,
      velocity written, and only then the dash override of the speed. The
      velocity therefore carries the speed from before the override, and the
      dash speed is what the next tick starts from. */
  function FixedUpdate(h: Hero, s: Settings, dt: real): (r: Hero)
    ensures r.moveDirX == h.moveDirX
    ensures IsUnit(h.orientX) ==> IsUnit(r.orientX)
    ensures r.verticalSpeed >= s.fall.fallSpeedMax
    ensures r.velocity.y == r.verticalSpeed
    ensures r.verticalSpeed == Max(h.verticalSpeed - s.fall.fallGravity * dt, s.fall.fallSpeedMax)
    ensures h.countDownDash > 0.0 ==>
              r.horizontalSpeed == s.dash.speed && r.countDownDash == h.countDownDash - dt
    ensures h.countDownDash <= 0.0 ==>
              r.countDownDash == h.countDownDash && r.velocity.x == r.horizontalSpeed * r.orientX
    ensures r.orientX == HorizontalStep(h, s.movement, dt).orientX
    ensures h.countDownDash <= 0.0 ==> r.horizontalSpeed == HorizontalStep(h, s.movement, dt).horizontalSpeed
    ensures r.velocity.x == HorizontalStep(h, s.movement, dt).horizontalSpeed * r.orientX
  {
    var moved := HorizontalStep(h, s.movement, dt);
    var fallen := ApplyFallGravity(moved, s.fall, dt);
    var applied := ApplyVerticalSpeed(ApplyHorizontalSpeed(fallen));
    if applied.countDownDash > 0.0 then UpdateSpeedDash(applied, s, dt) else applied
  }

  /** `n` ticks with the same settings, input and time step. */
  function Run(h: Hero, s: Settings, dt: real, n: nat): Hero
  {
    if n == 0 then h else FixedUpdate(Run(h, s, dt, n - 1), s, dt)
  }

  /** On the turn-back path the facing flips (to its opposite) exactly on the
      tick the friction drives the speed below zero. */
  lemma TurnBackFlipsOnlyAtFloor(h: Hero, m: MovementSettings, dt: real)
    requires IsUnit(h.orientX) && AreOrientAndMovementOpposite(h)
    ensures TurnBack(h, m, dt).orientX != h.orientX <==> h.horizontalSpeed - m.turnBackFrictions * dt < 0.0
    ensures TurnBack(h, m, dt).orientX != h.orientX ==> TurnBack(h, m, dt).orientX == -h.orientX
  {
  }

  /** With non-negative tuning and no dash running, a tick that starts with
      the speed in [0, speedMax] ends with it there, whichever branch runs. */
  lemma TickKeepsSpeedInRange(h: Hero, s: Settings, dt: real)
    requires s.movement.NonNegative() && dt >= 0.0
    requires 0.0 <= h.horizontalSpeed <= s.movement.speedMax
    requires h.countDownDash <= 0.0
    ensures 0.0 <= FixedUpdate(h, s, dt).horizontalSpeed <= s.movement.speedMax
    ensures FixedUpdate(h, s, dt).countDownDash <= 0.0
  {
    var m := s.movement;
    MulNonNegative(m.acceleration, dt);
    MulNonNegative(m.deceleration, dt);
    MulNonNegative(m.turnBackFrictions, dt);
  }

  /** The range of the previous lemma holds for any number of ticks. */
  lemma {:induction false} RunKeepsSpeedInRange(h: Hero, s: Settings, dt: real, n: nat)
    requires s.movement.NonNegative() && dt >= 0.0
    requires 0.0 <= h.horizontalSpeed <= s.movement.speedMax
    requires h.countDownDash <= 0.0
    ensures 0.0 <= Run(h, s, dt, n).horizontalSpeed <= s.movement.speedMax
    ensures Run(h, s, dt, n).countDownDash <= 0.0
  {
    if n > 0 {
      RunKeepsSpeedInRange(h, s, dt, n - 1);
      TickKeepsSpeedInRange(Run(h, s, dt, n - 1), s, dt);
    }
  }

  /** Starting from the initial facing, the facing is always 1 or -1. */
  lemma {:induction false} RunKeepsFacingUnit(h: Hero, s: Settings, dt: real, n: nat)
    requires IsUnit(h.orientX)
    ensures IsUnit(Run(h, s, dt, n).orientX)
  {
    if n > 0 {
      RunKeepsFacingUnit(h, s, dt, n - 1);
    }
  }

  /** With no input and no dash, the speed decays by `x = deceleration * dt`
      per tick down to zero and the facing stays put: after `n` ticks the
      speed is max(v0 - n * x, 0). */
  lemma ZeroInputDecaysToRest(h: Hero, s: Settings, dt: real, x: real, n: nat)
    requires h.moveDirX == 0.0 && h.countDownDash <= 0.0 && h.horizontalSpeed >= 0.0
    requires x == s.movement.deceleration * dt && x >= 0.0
    ensures Run(h, s, dt, n).horizontalSpeed == Max(h.horizontalSpeed - (n as real) * x, 0.0)
    ensures Run(h, s, dt, n).orientX == h.orientX
    ensures Run(h, s, dt, n).countDownDash == h.countDownDash
  {
    ZeroInputDecay(h, s, dt, x, n);
    RepeatedIsProduct(n, x);
  }

  lemma {:induction false} ZeroInputDecay(h: Hero, s: Settings, dt: real, x: real, n: nat)
    requires h.moveDirX == 0.0 && h.countDownDash <= 0.0 && h.horizontalSpeed >= 0.0
    requires x == s.movement.deceleration * dt && x >= 0.0
    ensures Run(h, s, dt, n).horizontalSpeed == Max(h.horizontalSpeed - Repeated(n, x), 0.0)
    ensures Run(h, s, dt, n).orientX == h.orientX
    ensures Run(h, s, dt, n).countDownDash == h.countDownDash
    ensures Run(h, s, dt, n).moveDirX == 0.0
  {
    if n > 0 {
      ZeroInputDecay(h, s, dt, x, n - 1);
      ZeroInputTick(Run(h, s, dt, n - 1), s, dt);
    }
  }

  /** One tick without input and without dash is a pure deceleration. */
  lemma ZeroInputTick(h: Hero, s: Settings, dt: real)
    requires h.moveDirX == 0.0 && h.countDownDash <= 0.0
    ensures FixedUpdate(h, s, dt).horizontalSpeed == Max(h.horizontalSpeed - s.movement.deceleration * dt, 0.0)
    ensures FixedUpdate(h, s, dt).orientX == h.orientX
    ensures FixedUpdate(h, s, dt).countDownDash == h.countDownDash
    ensures FixedUpdate(h, s, dt).moveDirX == 0.0
  {
    assert !AreOrientAndMovementOpposite(h);
  }

  /** With input held the way the hero faces and no dash, the speed ramps
      up by `x = acceleration * dt` per tick until it is capped: after `n`
      ticks it is min(v0 + n * x, speedMax). */
  lemma HeldInputRampsToTop(h: Hero, s: Settings, dt: real, x: real, n: nat)
    requires IsUnit(h.orientX) && h.moveDirX != 0.0 && Sign(h.moveDirX) == h.orientX
    requires h.countDownDash <= 0.0 && h.horizontalSpeed <= s.movement.speedMax
    requires x == s.movement.acceleration * dt && x >= 0.0
    ensures Run(h, s, dt, n).horizontalSpeed == Min(h.horizontalSpeed + (n as real) * x, s.movement.speedMax)
    ensures Run(h, s, dt, n).orientX == h.orientX
  {
    HeldInputRamp(h, s, dt, x, n);
    RepeatedIsProduct(n, x);
  }

  lemma {:induction false} HeldInputRamp(h: Hero, s: Settings, dt: real, x: real, n: nat)
    requires IsUnit(h.orientX) && h.moveDirX != 0.0 && Sign(h.moveDirX) == h.orientX
    requires h.countDownDash <= 0.0 && h.horizontalSpeed <= s.movement.speedMax
    requires x == s.movement.acceleration * dt && x >= 0.0
    ensures Run(h, s, dt, n).horizontalSpeed == Min(h.horizontalSpeed + Repeated(n, x), s.movement.speedMax)
    ensures Run(h, s, dt, n).orientX == h.orientX
    ensures Run(h, s, dt, n).countDownDash == h.countDownDash
    ensures Run(h, s, dt, n).moveDirX == h.moveDirX
  {
    if n > 0 {
      HeldInputRamp(h, s, dt, x, n - 1);
      HeldInputTick(Run(h, s, dt, n - 1), s, dt);
    }
  }

  /** One tick with input along the facing and no dash is exactly one
      acceleration step. */
  lemma HeldInputTick(h: Hero, s: Settings, dt: real)
    requires IsUnit(h.orientX) && h.moveDirX != 0.0 && Sign(h.moveDirX) == h.orientX
    requires h.countDownDash <= 0.0
    ensures FixedUpdate(h, s, dt).horizontalSpeed == Min(h.horizontalSpeed + s.movement.acceleration * dt, s.movement.speedMax)
    ensures FixedUpdate(h, s, dt).orientX == h.orientX
    ensures FixedUpdate(h, s, dt).countDownDash == h.countDownDash
    ensures FixedUpdate(h, s, dt).moveDirX == h.moveDirX
  {
  }

  /** A worked example: top speed 5, acceleration 20 and a
      0.1 s tick take a hero at rest pushing right to speed 2 after one tick,
      4 after two and the capped 5 after three. */
  lemma RampExample()
    ensures
      var s := Settings(MovementSettings(20.0, 5.0, 0.0, 0.0), DashSettings(0.0, 0.0),
                        FallSettings(0.0, 0.0));
      var h := SetMoveDirX(Initial(), 1.0);
      && Run(h, s, 0.1, 1).horizontalSpeed == 2.0
      && Run(h, s, 0.1, 2).horizontalSpeed == 4.0
      && Run(h, s, 0.1, 3).horizontalSpeed == 5.0
      && Run(h, s, 0.1, 3).velocity.x == 5.0
  {
    var s := Settings(MovementSettings(20.0, 5.0, 0.0, 0.0), DashSettings(0.0, 0.0),
                      FallSettings(0.0, 0.0));
    var h := SetMoveDirX(Initial(), 1.0);
    HeldInputTick(h, s, 0.1);
    HeldInputTick(Run(h, s, 0.1, 1), s, 0.1);
    HeldInputTick(Run(h, s, 0.1, 2), s, 0.1);
  }

  /** Zero input never raises the speed from one tick to the next. */
  lemma ZeroInputNeverSpeedsUp(h: Hero, s: Settings, dt: real)
    requires h.moveDirX == 0.0 && h.countDownDash <= 0.0 && h.horizontalSpeed >= 0.0
    requires s.movement.deceleration >= 0.0 && dt >= 0.0
    ensures 0.0 <= FixedUpdate(h, s, dt).horizontalSpeed <= h.horizontalSpeed
  {
    MulNonNegative(s.movement.deceleration, dt);
  }

  /** While the countdown of a dash is still positive at the start of each
      tick, every tick ends with the dash speed and the countdown lowered by
      `dt`: after `n` such ticks it stands at c - n * dt. */
  lemma DashPinsSpeed(h: Hero, s: Settings, dt: real, n: nat)
    requires n > 0 && dt >= 0.0
    requires h.countDownDash - ((n - 1) as real) * dt > 0.0
    ensures Run(h, s, dt, n).horizontalSpeed == s.dash.speed
    ensures Run(h, s, dt, n).countDownDash == h.countDownDash - (n as real) * dt
  {
    RepeatedIsProduct(n - 1, dt);
    RepeatedIsProduct(n, dt);
    DashCountdown(h, s, dt, n);
  }

  lemma {:induction false} DashCountdown(h: Hero, s: Settings, dt: real, n: nat)
    requires n > 0 && dt >= 0.0
    requires h.countDownDash - Repeated(n - 1, dt) > 0.0
    ensures Run(h, s, dt, n).horizontalSpeed == s.dash.speed
    ensures Run(h, s, dt, n).countDownDash == h.countDownDash - Repeated(n, dt)
  {
    if n > 1 {
      DashCountdown(h, s, dt, n - 1);
    }
  }

  /** Once the countdown is at or below zero, ticks leave it there: the dash
      stays over until `StartDash` re-arms it. */
  lemma {:induction false} ExpiredDashStaysExpired(h: Hero, s: Settings, dt: real, n: nat)
    requires h.countDownDash <= 0.0
    ensures Run(h, s, dt, n).countDownDash == h.countDownDash
  {
    if n > 0 {
      ExpiredDashStaysExpired(h, s, dt, n - 1);
    }
  }

  /** As written, the dash cannot make the hero faster than `speedMax` while a
      direction is held the way it faces: the dash speed stored at the end of
      a tick goes through `Accelerate`'s clamp before it is ever applied. */
  lemma HeldDirectionVelocityCappedDespiteDash(h: Hero, s: Settings, dt: real)
    requires IsUnit(h.orientX)
    requires h.moveDirX != 0.0 && !AreOrientAndMovementOpposite(h)
    ensures FixedUpdate(h, s, dt).velocity.x * Sign(h.moveDirX) <= s.movement.speedMax
  {
    var moved := HorizontalStep(h, s.movement, dt);
    assert moved.orientX == Sign(h.moveDirX);
    assert moved.horizontalSpeed <= s.movement.speedMax;
  }

  /** A concrete dash in progress, with the right key held: the stored speed
      is the dash speed 10, yet the velocity applied on the next tick is the
      top speed 5. */
  lemma DashSpeedNeverApplied()
    ensures
      var s := Settings(MovementSettings(20.0, 5.0, 20.0, 40.0), DashSettings(0.5, 10.0),
                        FallSettings(9.0, -10.0));
      var h := Hero(10.0, 1.0, 0.3, 1.0, 0.0, Velocity(5.0, 0.0));
      FixedUpdate(h, s, 0.02).velocity.x == 5.0 && FixedUpdate(h, s, 0.02).horizontalSpeed == 10.0
  {
  }

  /** The tick with the dash override moved before the velocity is written,
      so that a running dash is what the rigidbody receives. */
  function FixedUpdateDashApplied(h: Hero, s: Settings, dt: real): (r: Hero)
    ensures r.moveDirX == h.moveDirX
    ensures IsUnit(h.orientX) ==> IsUnit(r.orientX)
    ensures r.velocity.y == r.verticalSpeed && r.verticalSpeed >= s.fall.fallSpeedMax
    ensures r.verticalSpeed == Max(h.verticalSpeed - s.fall.fallGravity * dt, s.fall.fallSpeedMax)
    ensures r.velocity.x == r.horizontalSpeed * r.orientX
    ensures h.countDownDash > 0.0 ==>
              r.horizontalSpeed == s.dash.speed && r.countDownDash == h.countDownDash - dt
    ensures h.countDownDash <= 0.0 ==> r.countDownDash == h.countDownDash
  {
    var moved := HorizontalStep(h, s.movement, dt);
    var fallen := ApplyFallGravity(moved, s.fall, dt);
    var dashed := if fallen.countDownDash > 0.0 then UpdateSpeedDash(fallen, s, dt) else fallen;
    ApplyVerticalSpeed(ApplyHorizontalSpeed(dashed))
  }

  /** With the override applied first, a running dash moves the hero at the
      dash speed in its facing direction, and otherwise the tick is the
      script's tick. */
  lemma DashAppliedMovesAtDashSpeed(h: Hero, s: Settings, dt: real)
    requires h.countDownDash > 0.0
    ensures FixedUpdateDashApplied(h, s, dt).velocity.x
              == s.dash.speed * FixedUpdateDashApplied(h, s, dt).orientX
    ensures FixedUpdateDashApplied(h, s, dt).orientX == FixedUpdate(h, s, dt).orientX
    ensures var w := FixedUpdate(h, s, dt);
      FixedUpdateDashApplied(h, s, dt) == w.(velocity := w.velocity.(x := s.dash.speed * w.orientX))
  {
  }

  lemma DashAppliedAgreesWithoutDash(h: Hero, s: Settings, dt: real)
    requires h.countDownDash <= 0.0
    ensures FixedUpdateDashApplied(h, s, dt) == FixedUpdate(h, s, dt)
  {
  }
}

=== FILE: real_math.dfy ===
/** Small facts about `real` shared by the hero and camera models: the clamps
    the scripts write as "add, then overwrite if past the bound", and the
    engine's sign function. */
module RealMath {

  /** The smaller of two reals; the reference meaning of an upper clamp. */
  function Min(a: real, b: real): (r: real)
    ensures r <= a && r <= b
    ensures r == a || r == b
  {
    if a <= b then a else b
  }

  /** The larger of two reals; the reference meaning of a lower clamp. */
  function Max(a: real, b: real): (r: real)
    ensures r >= a && r >= b
    ensures r == a || r == b
  {
    if a >= b then a else b
  }

  /** The engine's sign function: 1 for zero and positive arguments, -1 for
      negative ones (it never returns 0). */
  function Sign(x: real): (r: real)
    ensures r == 1.0 || r == -1.0
    ensures r == 1.0 <==> x >= 0.0
  {
    if x >= 0.0 then 1.0 else -1.0
  }

  /** A facing direction: exactly one of the two unit values. */
  predicate IsUnit(x: real)
  {
    x == 1.0 || x == -1.0
  }

  lemma MulNonNegative(a: real, b: real)
    requires a >= 0.0 && b >= 0.0
    ensures a * b >= 0.0
  {
  }

  lemma MulPositive(a: real, b: real)
    requires a > 0.0 && b > 0.0
    ensures a * b > 0.0
  {
  }

  /** Scaling by a positive factor keeps the comparison with 1. */
  lemma AtLeastOneScaled(r: real, d: real)
    requires d > 0.0
    ensures r >= 1.0 <==> r * d >= d
  {
    if r >= 1.0 {
      MulNonNegative(r - 1.0, d);
      assert (r - 1.0) * d == r * d - d;
    } else {
      MulPositive(1.0 - r, d);
      assert (1.0 - r) * d == d - r * d;
    }
  }

  /** `n` copies of `x` added up: the product `n * x` in a form whose
      induction step is linear. */
  function Repeated(n: nat, x: real): real
  {
    if n == 0 then 0.0 else Repeated(n - 1, x) + x
  }

  lemma {:induction false} RepeatedIsProduct(n: nat, x: real)
    ensures Repeated(n, x) == (n as real) * x
  {
    if n > 0 {
      RepeatedIsProduct(n - 1, x);
      assert (n as real) * x == ((n - 1) as real) * x + x;
    }
  }
}
